=== FILE: README.md ===
# XMUCat profile store and view controller, modelled in Dafny

XMUCat is a single-page catalogue of the stray cats on the Xiamen University
campus. Its logic lives in the `App` component: an ordered list of cat
profiles, a current view (list, photo chooser, new-profile form, detail, edit
form), the id of the selected profile, a search term, a draft profile that the
forms edit, and an error message from the photo analysis. Everything else is
rendering, browser storage and a call to a remote image-analysis service.

This project models that state and its handlers as pure functions from one
state to the next:

- `wrappers.dfy`: `Option`, the model of a value that may be `undefined`/`null`.
- `text.dfy`: the JavaScript string helpers the handlers use. These are
  `includes` (substring test), `join` and the decimal `toString` that turns a
  clock reading into an id.
- `seqs.dfy`: `filter` and `map` over sequences, with proofs that filtering
  keeps order.
- `types.dfy`: the two enumerations with their labels, the twelve-field
  profile, the all-optional draft, and the analysis result. It also holds the
  two ways a draft becomes a profile: finalising a new one and merging into an
  old one.
- `store.dfy`: the seed list, lookup, prepend, update, remove-by-id and search.
- `app.dfy`: the application state, every handler, the screen choice, and an
  event-driven state machine. Its invariant (unique ids; the edit draft carries
  the selected id) is proved to hold along every run.

Inputs that the source reads from the environment are parameters:
- the clock. `Date.now()` is read twice in a save: one reading gives the id,
  the other gives `lastSeen`. Building the seed list reads the clock once per
  seed profile, so the seed takes two readings.
- the answer to the delete confirmation.
- how the photo step ended: no file chosen, image preparation failed, analysis
  failed, or analysis succeeded with a result.
- whether storage held a list at start-up.

Behaviour of the code worth knowing:
- A confirmed delete returns to the list but does not clear the selected id.
- Saving an edit for an id that is not listed leaves the list unchanged, with
  no not-found error (`Store.UpdateMissingIdIsNoOp`). The app still returns to
  the list and discards the draft.
- A failed analysis keeps every field the draft already had and adds the
  prepared image. The draft is left holding only the image just when it was
  empty before.
- Saving an edit overwrites every profile that shares the selected id, not only
  the first; the source never checks ids, and a stored list is taken as is.
- An edit that clears a text field stores the empty string. Only a new profile
  gets the "未知" default.

## Model

| member | source | states |
|---|---|---|
| `Types.StatusEnumeration` | types.ts:1-8 | there are exactly six statuses; their labels are non-empty and pairwise distinct and each reads back as its own status; the unknown status is "未知" |
| `Types.GenderEnumeration` | types.ts:10-14 | there are exactly three genders with non-empty, pairwise distinct labels that read back as themselves; the unknown gender is "未知" |
| `Types.ParseStatus` | App.tsx:263 | the status picker's value names a status only when that status's label is exactly the value; text that is no label gives none |
| `Types.ParseGender` | App.tsx:256 | the gender picker's value names a gender only when that gender's label is exactly the value |
| `Types.DraftOf` | App.tsx:144 | starting an edit loads every field of the profile into the draft, each present with the profile's value |
| `Types.Accepts` | App.tsx:110 | a save is refused exactly when the name or the location is absent or the empty string |
| `Types.Finalize` | App.tsx:113-126 | a new profile takes name and location from the draft and the given id and lastSeen; absent or empty breed, colour and age become "未知"; absent gender and status become unknown; absent or empty features and notes become ""; an absent or empty image becomes the placeholder |
| `Types.FinalizeDraftOf` | App.tsx:113-126 | finalising the full draft of a profile whose defaulted fields are filled gives that profile back with only id and lastSeen replaced |
| `Types.Merge` | App.tsx:129 | the edit merge is a shallow spread: every field present in the draft replaces the profile's field, even an empty string, and every absent field keeps its old value; `Types.MergeLaws` relates it to the empty and full drafts |
| `Types.MergeLaws` | App.tsx:129 | the edit merge with the empty draft is the identity, with a full draft of `p` yields `p`, and is idempotent |
| `Types.MergeStatusOnly` | App.tsx:129 | an edit that sets only the status changes only the status; lastSeen and every other field keep their values |
| `Store.Seed` | App.tsx:9-38 | the seed has two profiles with distinct ids; the first was seen two days before its clock reading, the second four hours before its own |
| `Store.SeedFacts` | App.tsx:9-38 | the seed is "大白" (id "1", male, healthy, 芙蓉隧道口) then "警长" (id "2", female, sick, 图书馆东门) |
| `Store.FindById` | App.tsx:142 | a profile is found exactly when one has the id; the one found is listed, has the id, and no earlier profile has it |
| `Store.FindSelected` | App.tsx:156 | with no selection nothing is found; otherwise a profile is found exactly when one has the selected id, and the one found is the first listed profile with that id |
| `Store.Prepend` | App.tsx:127 | the new profile comes first and the old list follows unchanged, one longer |
| `Store.PrependKeepsIdsUnique` | App.tsx:127 | putting a profile with an unused id first keeps ids unique |
| `Store.UpdateWhere` | App.tsx:129 | the edited list has the same length and order; the entries with the selected id become their merge with the draft, all others are unchanged |
| `Store.UpdateKeepsIds` | App.tsx:129 | an edit whose draft has no id or the edited id keeps every id in place, and so keeps ids unique |
| `Store.UpdateMissingIdIsNoOp` | App.tsx:128-129 | editing an id that no profile has leaves the list unchanged |
| `Seqs.Filter` | App.tsx:150-154 | `filter` keeps exactly the elements passing the test, in their original order, and is never longer than its input; `Seqs.FilterMultiset` adds that each kept element keeps its multiplicity |
| `Seqs.FilterMultiset` | App.tsx:136 | every element passing the test occurs in the filtered list as often as in the input, and no other element occurs |
| `Seqs.FilterAppend` | App.tsx:150-154 | filtering a concatenation is concatenating the filtered parts |
| `Seqs.FilterAllPass` | App.tsx:150-154 | when every element passes, `filter` returns the list unchanged |
| `Seqs.MapSeq` | App.tsx:129 | `map` has the input's length and applies the function at every index |
| `Store.RemoveById` | App.tsx:136 | after removal no profile has the id; every other profile remains as often as it occurred, in its original relative order; the list shrinks exactly when the id was present, else it is unchanged |
| `Store.RemoveAppend` | App.tsx:136 | removing from a concatenation is concatenating the removals from its parts |
| `Store.RemoveIdempotent` | App.tsx:136 | removing an id twice is removing it once |
| `Store.RemoveKeepsIdsUnique` | App.tsx:136 | removal keeps ids unique |
| `Store.Search` | App.tsx:150-154 | the search result is an order-preserving subsequence of the list holding exactly the profiles whose name, location or breed contains the term, each as often as in the list |
| `Store.SearchEmptyTerm` | App.tsx:150-154 | the empty term returns the whole list unchanged |
| `Store.SearchAppend` | App.tsx:150-154 | searching a concatenation is concatenating the searches of its parts |
| `Store.SearchSeedLibrary` | App.tsx:150-154 | over the seed, "图书馆" finds exactly "警长" |
| `Text.Contains` | App.tsx:151-153 | `includes`: a match needs a term no longer than the text and, for a non-empty term, its first character in the text; the empty term matches every text |
| `Text.ContainsIff` | App.tsx:151-153 | the substring test holds exactly when the term occurs at some position of the text |
| `Text.NotContainsWithoutFirstChar` | App.tsx:151-153 | a text lacking the term's first character does not contain the term |
| `Text.Join` | App.tsx:98 | joining no names gives "" and joining one name gives that name; `Text.JoinSnoc` fixes every longer list |
| `Text.JoinSnoc` | App.tsx:98 | joining one more name appends exactly the separator and that name |
| `Text.DecimalString` | App.tsx:114 | an id made from the clock is a non-empty string of digits with no leading zero |
| `Text.ParseDecimalString` | App.tsx:114 | reading the id back as a decimal number gives the clock value it was made from |
| `Text.DecimalStringInjective` | App.tsx:114 | distinct clock values give distinct ids |
| `App.Init` | App.tsx:44-55 | the first state holds the stored list, or the seed list built from the two clock readings when none is stored, in the list view with no selection, no search term, an empty draft and no error |
| `App.GoHome` | App.tsx:63-67 | going home resets view, draft and error and leaves the list, selection and search term alone |
| `App.GoHomeIdempotent` | App.tsx:63-67 | going home twice is going home once; a state already at home is unchanged |
| `App.GoDetail` | App.tsx:69-72 | opening a profile selects its id and shows the detail view, changing nothing else |
| `App.OpenCapture` | App.tsx:449 | the register button shows the photo chooser and changes nothing else |
| `App.SetSearchTerm` | App.tsx:404 | typing in the search box changes only the search term |
| `App.FillField` | App.tsx:240-296 | a form change replaces the draft by its `App.SetField` update and leaves list, view, selection, search term and error alone |
| `App.SetField` | App.tsx:240-296 | a form change makes exactly the edited field present with the entered value, even an empty one; all other fields, id, image and lastSeen included, are kept |
| `App.SuggestionNotes` | App.tsx:98 | the proposed notes are the health assessment, then the heading line, then the suggested names joined by ", " |
| `App.ApplyAnalysis` | App.tsx:92-99 | a successful analysis overwrites exactly breed, colour, age, features and notes; every other draft field is kept |
| `App.AnalysisReachesNewProfile` | App.tsx:92-126 | a new profile saved from an analysed draft records the analysed breed, colour, age and features (when non-empty) and the proposed notes, with the typed name and location |
| `App.PhotoSelect` | App.tsx:75-106 | with no file nothing changes; otherwise the form is shown. A preparation failure leaves the draft alone and sets the fixed error. An analysis failure keeps the prepared image and sets the error. Success stores the image, fills the analysed fields and leaves no error. The list, selection and search term never change |
| `App.Save` | App.tsx:108-132 | a draft without non-empty name and location changes nothing. Otherwise the app returns home, and the list changes by mode. In the new-profile form it gains the finalised profile in front of the unchanged old list. In the edit form with a non-empty selection it keeps length and order, and only entries with the selected id become their merge with the draft. In any other view it is unchanged |
| `App.Delete` | App.tsx:134-139 | a declined confirmation changes nothing; a confirmed one returns home with no profile having the id and every other profile kept in order, as often as it occurred |
| `App.DeleteIdempotent` | App.tsx:134-139 | a second confirmed delete of the same id changes nothing |
| `App.DetailShowsSelected` | App.tsx:312 | opening a listed id shows the detail screen of the first profile with that id; opening an unlisted id shows the filtered list |
| `App.DeleteShowsList` | App.tsx:134-139 | after a confirmed delete the list screen is shown and it does not show the deleted id |
| `App.EditStart` | App.tsx:141-147 | when the selected id is listed, the draft becomes the first profile with it and the edit form is shown, with nothing else changed; otherwise the state is unchanged |
| `App.EditWithoutChangesKeepsList` | App.tsx:141-147 | when ids are unique, starting an edit on a listed selection and saving it unchanged leaves the list exactly as it was, whether the save is accepted or refused |
| `App.FilteredCats` | App.tsx:150-154 | the list shows exactly the profiles matching the search term, in list order, each as often as it is listed, and all of them for the empty term |
| `App.CurrentScreen` | App.tsx:174-392 | the chooser, the form and the detail screen are shown exactly in their views; the detail screen shows the first listed profile with the selected id; a detail view whose selection is gone falls back to the filtered list |
| `App.InitInv` | App.tsx:44-47 | the first state satisfies the invariant when the stored list has unique ids |
| `App.SaveInv` | App.tsx:108-132 | a save whose clock gives an unused id keeps ids unique and the edit-draft invariant |
| `App.DeleteInv` | App.tsx:134-139 | a delete, confirmed or declined, keeps ids unique and the edit-draft invariant |
| `App.StepInv` | App.tsx:108-147 | every handler preserves the invariant (unique ids; the edit draft carries the selected id) when the clock gives an unused id |
| `App.RunInv` | App.tsx:108-147 | every run of events with unused clock ids preserves the invariant |
| `App.FailedAnalysisStillSaves` | App.tsx:100-102 | after a failed analysis the error is shown. Typing a name and a location and saving still creates, in front of the old list, a profile with the prepared image, the typed text, the clock id and lastSeen |

## Left out

- Rendering, styling, icons and `components/EmptyState.tsx`: presentation only. `App.CurrentScreen` keeps only which screen is chosen.
- Persistence to `localStorage` and JSON (de)serialisation (App.tsx:44-47, 58-60) are browser I/O. Start-up is modelled as an optional stored list, where `None` stands for a missing or empty entry. Stored text that parses to something other than a list is not modelled, and neither is the serialisation round trip.
- `services/geminiService.ts` (credential check, request, response parsing, data-URL prefix strip) and `compressImage` are remote or opaque calls. They appear only as the photo step's outcome.
- An analysis response without `possibleNameSuggestions`: the response schema in `services/geminiService.ts` does not require the list, but `CatAnalysisResult` always carries one, so the model has no state for such a reply. In the source the `join` at App.tsx:98 runs inside the updater function handed to `setFormData` at App.tsx:92-99, and React catches an error thrown by the updater and throws it again while rendering, so it never reaches the `catch` of `handlePhotoSelect`. The error therefore surfaces during render, and with no error boundary the app stops rendering altogether.
- The `isAnalyzing` flag only drives the loading overlay. It is false again once the photo step completes, which is the only point the model observes.
- Asynchronous interleaving in the photo step is concurrency and is not modelled. This includes an analysis result that merges into the draft after the user has navigated away. Only the step's completion, with nothing in between, is modelled.
- The handlers are callable from any view. The user interface shows each button only in some views, so the model allows more event orders than the program does. The invariants are proved for all of them.
- Id uniqueness is never checked by the source. It holds only because each save reads a new clock value, and the model takes that as the precondition `App.FreshClock`.
- `Text.DecimalString`: does not model JavaScript's exponential notation for numbers of 10^21 and above, because clock readings in milliseconds stay far below that.
- Strings are sequences of Unicode scalar values, not UTF-16 code units. The two agree for every character the application uses.
- `e.preventDefault()` and `console.error` have no effect on the state.

=== FILE: app.dfy ===
/** The single-page application's controller: one state record (the profile
    list, the current view, the selected id, the search term, the form draft
    and the analysis error message) and the handlers that move it from one
    state to the next, each a pure function of the state and its inputs.
    Clock readings, the delete confirmation and the outcome of the photo
    preparation and analysis are inputs. */
module App {
  import opened Wrappers
  import opened Text
  import opened Seqs
  import opened Types
  import opened Store

  datatype View = Home | AddPhoto | AddDetails | Detail | Edit

  datatype AppState = AppState(
    cats: seq<CatProfile>,
    view: View,
    selected: Option<string>,
    searchTerm: string,
    draft: CatDraft,
    analysisError: Option<string>)

  /** The message shown when preparing or analysing a photo fails. */
  const AnalysisFailureMessage: string := "AI 识别失败，请手动输入信息。"

  /** The line that introduces the suggested names in the notes. */
  const SuggestionsHeading: string := "\n推荐名字: "

  /** The state right after a return to the list: list view, empty draft, no
      error message. */
  predicate AtHome(s: AppState) {
    s.view == Home && s.draft == EmptyDraft && s.analysisError.None?
  }

  /* ---------- start-up ---------- */

  /** The first state: the stored list when storage holds one (`None` stands for
      a missing or empty entry), otherwise the seed built with the two clock
      readings taken while it is constructed; list view, no selection, empty
      search term, empty draft, no error. */
  function Init(stored: Option<seq<CatProfile>>, firstClock: int, secondClock: int): (s: AppState)
    ensures AtHome(s) && s.selected.None? && s.searchTerm == ""
    ensures stored.Some? ==> s.cats == stored.value
    ensures stored.None? ==> s.cats == Seed(firstClock, secondClock)
  {
    AppState(if stored.Some? then stored.value else Seed(firstClock, secondClock), Home, None, "", EmptyDraft, None)
  }

  /* ---------- navigation ---------- */

  /** Back to the list: the view, draft and error are reset; the list, the
      selection and the search term are untouched. */
  function GoHome(s: AppState): (r: AppState)
    ensures AtHome(r)
    ensures r.cats == s.cats && r.selected == s.selected && r.searchTerm == s.searchTerm
  {
    s.(view := Home, draft := EmptyDraft, analysisError := None)
  }

  /** Going home twice is going home once, and a state already at home with an
      empty draft is left as it is. */
  lemma GoHomeIdempotent(s: AppState)
    ensures GoHome(GoHome(s)) == GoHome(s)
    ensures AtHome(s) ==> GoHome(s) == s
  {
  }

  /** Open one profile: it becomes the selection and the detail view is shown;
      nothing else changes. */
  function GoDetail(s: AppState, id: string): (r: AppState)
    ensures r.view == Detail && r.selected == Some(id)
    ensures r.cats == s.cats && r.draft == s.draft && r.searchTerm == s.searchTerm
    ensures r.analysisError == s.analysisError
  {
    s.(selected := Some(id), view := Detail)
  }

  /** The register button: show the photo chooser; nothing else changes. */
  function OpenCapture(s: AppState): (r: AppState)
    ensures r.view == AddPhoto && r.(view := s.view) == s
  {
    s.(view := AddPhoto)
  }

  /** Typing in the search box replaces the term and nothing else. */
  function SetSearchTerm(s: AppState, term: string): (r: AppState)
    ensures r.searchTerm == term && r.(searchTerm := s.searchTerm) == s
  {
    s.(searchTerm := term)
  }

  /* ---------- form input ---------- */

  /** One change made in the form: a text box or a picker. The id, image and
      sighting time have no input of their own. */
  datatype FormInput =
    | NameInput(name: string)
    | LocationInput(location: string)
    | GenderInput(gender: Gender)
    | StatusInput(status: CatStatus)
    | BreedInput(breed: string)
    | ColorInput(color: string)
    | AgeInput(age: string)
    | FeaturesInput(features: string)
    | NotesInput(notes: string)

  /** The draft after one form change: the edited field becomes present with
      the entered value (even when empty), every other field is kept. */
  function SetField(d: CatDraft, input: FormInput): (r: CatDraft)
    ensures r.id == d.id && r.imageUrl == d.imageUrl && r.lastSeen == d.lastSeen
    ensures r.name == (if input.NameInput? then Some(input.name) else d.name)
    ensures r.location == (if input.LocationInput? then Some(input.location) else d.location)
    ensures r.gender == (if input.GenderInput? then Some(input.gender) else d.gender)
    ensures r.status == (if input.StatusInput? then Some(input.status) else d.status)
    ensures r.breed == (if input.BreedInput? then Some(input.breed) else d.breed)
    ensures r.color == (if input.ColorInput? then Some(input.color) else d.color)
    ensures r.estimatedAge == (if input.AgeInput? then Some(input.age) else d.estimatedAge)
    ensures r.features == (if input.FeaturesInput? then Some(input.features) else d.features)
    ensures r.notes == (if input.NotesInput? then Some(input.notes) else d.notes)
  {
    match input
    case NameInput(v) => d.(name := Some(v))
    case LocationInput(v) => d.(location := Some(v))
    case GenderInput(g) => d.(gender := Some(g))
    case StatusInput(st) => d.(status := Some(st))
    case BreedInput(v) => d.(breed := Some(v))
    case ColorInput(v) => d.(color := Some(v))
    case AgeInput(v) => d.(estimatedAge := Some(v))
    case FeaturesInput(v) => d.(features := Some(v))
    case NotesInput(v) => d.(notes := Some(v))
  }

  /** A form change touches only the draft. */
  function FillField(s: AppState, input: FormInput): (r: AppState)
    ensures r.draft == SetField(s.draft, input) && r.(draft := s.draft) == s
  {
    s.(draft := SetField(s.draft, input))
  }

  /* ---------- photo selection and analysis ---------- */

  /** How the photo step ends, run to completion: no file was chosen, the image
      could not be prepared, the prepared image could not be analysed, or the
      analysis produced a result. */
  datatype PhotoOutcome =
    | NoFile
    | CompressFailed
    | AnalysisFailed(image: string)
    | Analyzed(image: string, result: CatAnalysisResult)

  /** The notes proposed by an analysis: the health assessment, then a line
      listing the suggested names separated by ", ". */
  function SuggestionNotes(a: CatAnalysisResult): (r: string)
    ensures |r| >= |a.visualHealthAssessment| + |SuggestionsHeading|
    ensures r[..|a.visualHealthAssessment|] == a.visualHealthAssessment
    ensures r[|a.visualHealthAssessment|..|a.visualHealthAssessment| + |SuggestionsHeading|] == SuggestionsHeading
    ensures r[|a.visualHealthAssessment| + |SuggestionsHeading|..] == Join(a.possibleNameSuggestions, ", ")
  {
    a.visualHealthAssessment + SuggestionsHeading + Join(a.possibleNameSuggestions, ", ")
  }

  /** The draft after a successful analysis: breed, colour, age, features and
      notes are overwritten; every other field is kept. */
  function ApplyAnalysis(d: CatDraft, a: CatAnalysisResult): (r: CatDraft)
    ensures r.breed == Some(a.breed) && r.color == Some(a.color)
    ensures r.estimatedAge == Some(a.estimatedAge) && r.features == Some(a.features)
    ensures r.notes == Some(SuggestionNotes(a))
    ensures r.(breed := d.breed, color := d.color, estimatedAge := d.estimatedAge,
               features := d.features, notes := d.notes) == d
  {
    d.(breed := Some(a.breed), color := Some(a.color), estimatedAge := Some(a.estimatedAge),
       features := Some(a.features), notes := Some(SuggestionNotes(a)))
  }

  /** What a successful analysis proposes is what a new profile saved from that
      draft records: non-empty analysed breed, colour, age and features are
      kept as they are, and the notes are the proposed notes. */
  lemma AnalysisReachesNewProfile(d: CatDraft, a: CatAnalysisResult, id: string, seen: int)
    requires Accepts(d)
    requires a.breed != "" && a.color != "" && a.estimatedAge != "" && a.features != ""
    ensures var p := Finalize(ApplyAnalysis(d, a), id, seen);
            && p.breed == a.breed && p.color == a.color && p.estimatedAge == a.estimatedAge
            && p.features == a.features && p.notes == SuggestionNotes(a)
            && p.name == d.name.value && p.location == d.location.value
  {
    var notes := SuggestionNotes(a);
    assert |notes| >= |SuggestionsHeading| > 0;
  }

  /** Choosing a photo. With no file nothing happens. Otherwise the form is
      shown and any earlier error cleared; a prepared image is stored in the
      draft before analysis; a successful analysis then fills the analysed
      fields, while a failure of either step leaves the fixed error message. */
  function PhotoSelect(s: AppState, outcome: PhotoOutcome): (r: AppState)
    ensures outcome.NoFile? ==> r == s
    ensures !outcome.NoFile? ==> r.view == AddDetails
    ensures r.cats == s.cats && r.selected == s.selected && r.searchTerm == s.searchTerm
    ensures outcome.CompressFailed? ==> r.draft == s.draft
    ensures outcome.AnalysisFailed? ==> r.draft == s.draft.(imageUrl := Some(outcome.image))
    ensures outcome.Analyzed? ==>
              r.draft == ApplyAnalysis(s.draft.(imageUrl := Some(outcome.image)), outcome.result)
    ensures outcome.Analyzed? ==> r.analysisError.None?
    ensures (outcome.CompressFailed? || outcome.AnalysisFailed?) ==> r.analysisError == Some(AnalysisFailureMessage)
  {
    match outcome
    case NoFile => s
    case CompressFailed =>
      s.(view := AddDetails, analysisError := Some(AnalysisFailureMessage))
    case AnalysisFailed(image) =>
      s.(view := AddDetails, draft := s.draft.(imageUrl := Some(image)),
         analysisError := Some(AnalysisFailureMessage))
    case Analyzed(image, result) =>
      s.(view := AddDetails, draft := ApplyAnalysis(s.draft.(imageUrl := Some(image)), result),
         analysisError := None)
  }

  /* ---------- save ---------- */

  /** The save button. A draft without a non-empty name and location is
      refused and nothing changes. Otherwise, in the new-profile form the new
      profile (id = decimal text of the first clock reading, lastSeen = the
      second) is put first; in the edit form with a non-empty selection every
      profile with the selected id is merged with the draft; and in every
      accepted case the app returns home. */
  function Save(s: AppState, idClock: nat, seenClock: int): (r: AppState)
    ensures !Accepts(s.draft) ==> r == s
    ensures Accepts(s.draft) ==> AtHome(r) && r.selected == s.selected && r.searchTerm == s.searchTerm
    ensures Accepts(s.draft) && s.view == AddDetails ==>
              |r.cats| == |s.cats| + 1 && r.cats[1..] == s.cats
              && r.cats[0] == Finalize(s.draft, DecimalString(idClock), seenClock)
    ensures Accepts(s.draft) && s.view == Edit && Filled(s.selected) ==>
              |r.cats| == |s.cats|
              && (forall i :: 0 <= i < |s.cats| && s.cats[i].id == s.selected.value ==> r.cats[i] == Merge(s.cats[i], s.draft))
              && (forall i :: 0 <= i < |s.cats| && s.cats[i].id != s.selected.value ==> r.cats[i] == s.cats[i])
    ensures Accepts(s.draft) && s.view != AddDetails && !(s.view == Edit && Filled(s.selected)) ==>
              r.cats == s.cats
  {
    if !Accepts(s.draft) then s
    else if s.view == AddDetails then
      GoHome(s.(cats := Prepend(s.cats, Finalize(s.draft, DecimalString(idClock), seenClock))))
    else if s.view == Edit && Filled(s.selected) then
      GoHome(s.(cats := UpdateWhere(s.cats, s.selected.value, s.draft)))
    else GoHome(s)
  }

  /* ---------- delete ---------- */

  /** The delete button. A declined confirmation changes nothing; a confirmed
      one removes every profile with the id and returns home. The selection is
      not cleared. */
  function Delete(s: AppState, id: string, confirmed: bool): (r: AppState)
    ensures !confirmed ==> r == s
    ensures confirmed ==> AtHome(r) && r.selected == s.selected && r.searchTerm == s.searchTerm
    ensures confirmed ==> !HasId(r.cats, id) && IsSubsequence(r.cats, s.cats)
    ensures confirmed ==> forall i :: 0 <= i < |s.cats| && s.cats[i].id != id ==> s.cats[i] in r.cats
    ensures confirmed ==> forall x: CatProfile ::
              multiset(r.cats)[x] == (if x.id == id then 0 else multiset(s.cats)[x])
  {
    if confirmed then GoHome(s.(cats := RemoveById(s.cats, id))) else s
  }

  /** A second confirmed delete of the same id changes nothing more. */
  lemma DeleteIdempotent(s: AppState, id: string)
    ensures Delete(Delete(s, id, true), id, true) == Delete(s, id, true)
  {
    RemoveIdempotent(s.cats, id);
  }

  /* ---------- edit ---------- */

  /** The edit button: when the selection names a listed profile, the draft
      becomes (the first) such profile and the edit form is shown; otherwise
      nothing changes. */
  function EditStart(s: AppState): (r: AppState)
    ensures (s.selected.None? || !HasId(s.cats, s.selected.value)) ==> r == s
    ensures s.selected.Some? && HasId(s.cats, s.selected.value) ==>
              r.view == Edit && r.draft == DraftOf(FindById(s.cats, s.selected.value).value)
              && r.draft.id == s.selected
              && r.(view := s.view, draft := s.draft) == s
  {
    match FindSelected(s.cats, s.selected)
    case Some(c) => s.(draft := DraftOf(c), view := Edit)
    case None => s
  }

  /** Starting an edit and saving without changing anything leaves the list as
      it was, given unique ids. */
  lemma EditWithoutChangesKeepsList(s: AppState, idClock: nat, seenClock: int)
    requires s.selected.Some? && HasId(s.cats, s.selected.value)
    requires IdsUnique(s.cats)
    ensures Save(EditStart(s), idClock, seenClock).cats == s.cats
  {
    var id := s.selected.value;
    var c := FindById(s.cats, id).value;
    var e := EditStart(s);
    var r := Save(e, idClock, seenClock);
    if Accepts(e.draft) && Filled(s.selected) {
      forall i | 0 <= i < |s.cats|
        ensures r.cats[i] == s.cats[i]
      {
        if s.cats[i].id == id {
          var k :| 0 <= k < |s.cats| && s.cats[k] == c && forall j :: 0 <= j < k ==> s.cats[j].id != id;
          assert k == i;
          MergeLaws(s.cats[i], c, EmptyDraft);
        }
      }
    }
  }

  /* ---------- what is on screen ---------- */

  datatype Screen =
    | CaptureScreen
    | FormScreen(editing: bool)
    | DetailScreen(cat: CatProfile)
    | ListScreen(shown: seq<CatProfile>)

  /** The profiles the list shows: those matching the search term, in list order. */
  function FilteredCats(s: AppState): (r: seq<CatProfile>)
    ensures forall i :: 0 <= i < |r| ==> r[i] in s.cats && Matches(r[i], s.searchTerm)
    ensures forall i :: 0 <= i < |s.cats| && Matches(s.cats[i], s.searchTerm) ==> s.cats[i] in r
    ensures forall x: CatProfile :: multiset(r)[x] == (if Matches(x, s.searchTerm) then multiset(s.cats)[x] else 0)
    ensures IsSubsequence(r, s.cats)
    ensures s.searchTerm == "" ==> r == s.cats
  {
    SearchEmptyTerm(s.cats);
    Search(s.cats, s.searchTerm)
  }

  /** The screen rendered for a state. A detail view whose selection is no
      longer listed falls back to the list. */
  function CurrentScreen(s: AppState): (r: Screen)
    ensures r.CaptureScreen? <==> s.view == AddPhoto
    ensures r.FormScreen? <==> s.view == AddDetails || s.view == Edit
    ensures r.FormScreen? ==> (r.editing <==> s.view == Edit)
    ensures r.DetailScreen? <==> s.view == Detail && s.selected.Some? && HasId(s.cats, s.selected.value)
    ensures r.DetailScreen? ==> r.cat in s.cats && Some(r.cat.id) == s.selected
    ensures r.DetailScreen? ==> exists i :: 0 <= i < |s.cats| && s.cats[i] == r.cat && forall j :: 0 <= j < i ==> s.cats[j].id != r.cat.id
    ensures r.ListScreen? ==> r.shown == FilteredCats(s)
  {
    if s.view == AddPhoto then CaptureScreen
    else if s.view == AddDetails || s.view == Edit then FormScreen(s.view == Edit)
    else
      match FindSelected(s.cats, s.selected)
      case Some(c) => if s.view == Detail then DetailScreen(c) else ListScreen(FilteredCats(s))
      case None => ListScreen(FilteredCats(s))
  }

  /** Opening a listed profile shows the detail screen of the first profile
      with that id; opening an id that is not listed shows the list. */
  lemma DetailShowsSelected(s: AppState, id: string)
    ensures HasId(s.cats, id) ==> CurrentScreen(GoDetail(s, id)) == DetailScreen(FindById(s.cats, id).value)
    ensures !HasId(s.cats, id) ==> CurrentScreen(GoDetail(s, id)) == ListScreen(FilteredCats(s))
  {
  }

  /** After a confirmed delete the list is on screen, and it no longer shows the
      deleted profile. */
  lemma DeleteShowsList(s: AppState, id: string)
    ensures CurrentScreen(Delete(s, id, true)).ListScreen?
    ensures !HasId(CurrentScreen(Delete(s, id, true)).shown, id)
  {
    var r := Delete(s, id, true);
    var shown := CurrentScreen(r).shown;
    forall i | 0 <= i < |shown|
      ensures shown[i].id != id
    {
      assert shown[i] in r.cats;
    }
  }

  /* ---------- the state machine ---------- */

  /** One user action or completed asynchronous step, with its inputs. */
  datatype Event =
    | BackHome
    | OpenDetail(id: string)
    | Register
    | TypeSearch(term: string)
    | Fill(input: FormInput)
    | ChoosePhoto(outcome: PhotoOutcome)
    | Submit(idClock: nat, seenClock: int)
    | RequestDelete(id: string, confirmed: bool)
    | StartEdit

  function Step(s: AppState, e: Event): AppState {
    match e
    case BackHome => GoHome(s)
    case OpenDetail(id) => GoDetail(s, id)
    case Register => OpenCapture(s)
    case TypeSearch(term) => SetSearchTerm(s, term)
    case Fill(input) => FillField(s, input)
    case ChoosePhoto(outcome) => PhotoSelect(s, outcome)
    case Submit(idClock, seenClock) => Save(s, idClock, seenClock)
    case RequestDelete(id, confirmed) => Delete(s, id, confirmed)
    case StartEdit => EditStart(s)
  }

  /** The events in order. */
  function Run(s: AppState, es: seq<Event>): AppState
    decreases |es|
  {
    if |es| == 0 then s else Run(Step(s, es[0]), es[1..])
  }

  /** Ids stay unique, and in the edit form the draft carries the selected id. */
  predicate Inv(s: AppState) {
    && IdsUnique(s.cats)
    && (s.view == Edit ==> s.selected.Some? && s.draft.id == s.selected)
  }

  /** The clock supplies an id no listed profile has (the source assumes this
      of `Date.now()` and never checks it). */
  predicate FreshClock(s: AppState, e: Event) {
    e.Submit? ==> !HasId(s.cats, DecimalString(e.idClock))
  }

  predicate FreshRun(s: AppState, es: seq<Event>)
    decreases |es|
  {
    |es| == 0 || (FreshClock(s, es[0]) && FreshRun(Step(s, es[0]), es[1..]))
  }

  /** The first state satisfies the invariant when the stored list has unique ids. */
  lemma InitInv(stored: Option<seq<CatProfile>>, firstClock: int, secondClock: int)
    requires stored.Some? ==> IdsUnique(stored.value)
    ensures Inv(Init(stored, firstClock, secondClock))
  {
  }

  /** A save whose clock gives an id not yet listed preserves the invariant. */
  lemma SaveInv(s: AppState, idClock: nat, seenClock: int)
    requires Inv(s) && !HasId(s.cats, DecimalString(idClock))
    ensures Inv(Save(s, idClock, seenClock))
  {
    if Accepts(s.draft) {
      if s.view == AddDetails {
        PrependKeepsIdsUnique(s.cats, Finalize(s.draft, DecimalString(idClock), seenClock));
      } else if s.view == Edit && Filled(s.selected) {
        UpdateKeepsIds(s.cats, s.selected.value, s.draft);
      }
    }
  }

  /** A delete, confirmed or not, preserves the invariant. */
  lemma DeleteInv(s: AppState, id: string, confirmed: bool)
    requires Inv(s)
    ensures Inv(Delete(s, id, confirmed))
  {
    if confirmed {
      RemoveKeepsIdsUnique(s.cats, id);
    }
  }

  /** Every event preserves the invariant, given a fresh clock value. */
  lemma StepInv(s: AppState, e: Event)
    requires Inv(s) && FreshClock(s, e)
    ensures Inv(Step(s, e))
  {
    match e
    case Submit(idClock, seenClock) => SaveInv(s, idClock, seenClock);
    case RequestDelete(id, confirmed) => DeleteInv(s, id, confirmed);
    case _ =>
  }

  /** Any run of events with fresh clock values preserves the invariant. */
  lemma {:induction false} RunInv(s: AppState, es: seq<Event>)
    requires Inv(s) && FreshRun(s, es)
    ensures Inv(Run(s, es))
    decreases |es|
  {
    if |es| > 0 {
      StepInv(s, es[0]);
      RunInv(Step(s, es[0]), es[1..]);
    }
  }

  /** A failed analysis does not block registration: after it, typing a name
      and a location and saving creates a profile that carries the prepared
      image and the entered text, puts it first, and clears the error. */
  lemma FailedAnalysisStillSaves(s: AppState, image: string, name: string, location: string,
                                 idClock: nat, seenClock: int)
    requires image != "" && name != "" && location != ""
    ensures var failed := PhotoSelect(s, AnalysisFailed(image));
            failed.analysisError == Some(AnalysisFailureMessage)
            && var typed := FillField(FillField(failed, NameInput(name)), LocationInput(location));
            var r := Save(typed, idClock, seenClock);
            && AtHome(r) && |r.cats| == |s.cats| + 1 && r.cats[1..] == s.cats
            && r.cats[0].imageUrl == image && r.cats[0].name == name && r.cats[0].location == location
            && r.cats[0].id == DecimalString(idClock) && r.cats[0].lastSeen == seenClock
  {
  }
}

=== FILE: seqs.dfy ===
/** `Array.prototype.filter` and `Array.prototype.map` over immutable sequences,
    with the facts the profile store needs: filtering keeps the surviving
    elements in their original order, and mapping keeps positions. */
module Seqs {

  /** `a` can be obtained from `b` by deleting elements, without reordering. */
  predicate IsSubsequence<T(==)>(a: seq<T>, b: seq<T>)
    decreases |b|
  {
    if |a| == 0 then true
    else if |b| == 0 then false
    else (a[0] == b[0] && IsSubsequence(a[1..], b[1..])) || IsSubsequence(a, b[1..])
  }

  /** `xs.filter(p)`. */
  function Filter<T(==)>(xs: seq<T>, p: T -> bool): (r: seq<T>)
    ensures |r| <= |xs|
    ensures forall i :: 0 <= i < |r| ==> r[i] in xs && p(r[i])
    ensures forall i :: 0 <= i < |xs| && p(xs[i]) ==> xs[i] in r
    ensures IsSubsequence(r, xs)
  {
    if |xs| == 0 then []
    else if p(xs[0]) then
      var rest := Filter(xs[1..], p);
      assert ([xs[0]] + rest)[1..] == rest;
      [xs[0]] + rest
    else Filter(xs[1..], p)
  }

  /** Filtering a concatenation filters each part, so the result keeps the
      relative order of its elements. */
  lemma {:induction false} FilterAppend<T>(xs: seq<T>, ys: seq<T>, p: T -> bool)
    ensures Filter(xs + ys, p) == Filter(xs, p) + Filter(ys, p)
    decreases |xs|
  {
    if |xs| > 0 {
      assert (xs + ys)[0] == xs[0];
      assert (xs + ys)[1..] == xs[1..] + ys;
      FilterAppend(xs[1..], ys, p);
      if p(xs[0]) {
        assert Filter(xs + ys, p) == [xs[0]] + Filter(xs[1..] + ys, p);
        assert Filter(xs, p) == [xs[0]] + Filter(xs[1..], p);
      }
    } else {
      assert xs + ys == ys;
    }
  }

  /** When every element passes, filtering returns the whole sequence. */
  lemma {:induction false} FilterAllPass<T>(xs: seq<T>, p: T -> bool)
    requires forall i :: 0 <= i < |xs| ==> p(xs[i])
    ensures Filter(xs, p) == xs
    decreases |xs|
  {
    if |xs| > 0 {
      assert p(xs[0]);
      FilterAllPass(xs[1..], p);
      assert [xs[0]] + xs[1..] == xs;
    }
  }

  /** Filtering keeps every passing element exactly as often as it occurs, and
      drops every failing one. */
  lemma {:induction false} FilterMultiset<T>(xs: seq<T>, p: T -> bool)
    ensures forall x :: multiset(Filter(xs, p))[x] == (if p(x) then multiset(xs)[x] else 0)
    decreases |xs|
  {
    if |xs| > 0 {
      FilterMultiset(xs[1..], p);
      assert xs == [xs[0]] + xs[1..];
      assert multiset(xs) == multiset{xs[0]} + multiset(xs[1..]);
      if p(xs[0]) {
        assert multiset(Filter(xs, p)) == multiset{xs[0]} + multiset(Filter(xs[1..], p));
      }
    }
  }

  /** `xs.map(f)`. */
  function MapSeq<T, U>(xs: seq<T>, f: T -> U): (r: seq<U>)
    ensures |r| == |xs|
    ensures forall i :: 0 <= i < |xs| ==> r[i] == f(xs[i])
  {
    if |xs| == 0 then [] else [f(xs[0])] + MapSeq(xs[1..], f)
  }
}

=== FILE: store.dfy ===
/** The in-memory profile collection: the seed list, lookup by id, and the
    list operations behind create (prepend), edit (merge the selected entry),
    delete (remove by id) and search (substring filter). */
module Store {
  import opened Wrappers
  import opened Text
  import opened Seqs
  import opened Types

  /** No two profiles in the list share an id. The source never checks this;
      the model carries it as an invariant that fresh clock values maintain. */
  predicate IdsUnique(cats: seq<CatProfile>) {
    forall i, j :: 0 <= i < j < |cats| ==> cats[i].id != cats[j].id
  }

  /** Some profile in the list has this id. */
  predicate HasId(cats: seq<CatProfile>, id: string) {
    exists i :: 0 <= i < |cats| && cats[i].id == id
  }

  /* ---------- seed ---------- */

  /** The two sample profiles used when nothing is stored. Each one's sighting
      time is measured back from its own clock reading, taken as the list is
      built: two days before the first, four hours before the second. */
  function Seed(firstClock: int, secondClock: int): (r: seq<CatProfile>)
    ensures |r| == 2 && IdsUnique(r)
    ensures r[0].lastSeen == firstClock - 172800000 && r[1].lastSeen == secondClock - 14400000
  {
    [ CatProfile("1", "大白", "芙蓉隧道口", "中华田园猫（白猫）", "全白", "3岁", Male, Healthy,
                 "眼睛异色，左耳微缺", "https://picsum.photos/id/40/500/500",
                 firstClock - 86400000 * 2, "性格温顺，喜欢吃火腿肠"),
      CatProfile("2", "警长", "图书馆东门", "黑白猫", "黑白", "1.5岁", Female, Sick,
                 "鼻子上有黑点，像警长胡子", "https://picsum.photos/id/219/500/500",
                 secondClock - 3600000 * 4, "最近有点拉肚子，已喂药") ]
  }

  /** The seed holds "大白" (healthy, at "芙蓉隧道口", id "1") then "警长" (sick,
      at "图书馆东门", id "2"). */
  lemma SeedFacts(firstClock: int, secondClock: int)
    ensures var cats := Seed(firstClock, secondClock);
            && cats[0].id == "1" && cats[0].name == "大白" && cats[0].location == "芙蓉隧道口"
            && cats[0].status == Healthy && cats[0].gender == Male
            && cats[1].id == "2" && cats[1].name == "警长" && cats[1].location == "图书馆东门"
            && cats[1].status == Sick && cats[1].gender == Female
  {
  }

  /* ---------- lookup: `cats.find(c => c.id === id)` ---------- */

  /** The first profile with the given id, or None when there is none. */
  function FindById(cats: seq<CatProfile>, id: string): (r: Option<CatProfile>)
    ensures r.Some? <==> HasId(cats, id)
    ensures r.Some? ==> r.value in cats && r.value.id == id
    ensures r.Some? ==> exists i :: 0 <= i < |cats| && cats[i] == r.value
                           && forall j :: 0 <= j < i ==> cats[j].id != id
  {
    if |cats| == 0 then None
    else if cats[0].id == id then Some(cats[0])
    else
      var r := FindById(cats[1..], id);
      assert r.Some? ==> exists i :: 0 <= i < |cats| && cats[i] == r.value
                           && forall j :: 0 <= j < i ==> cats[j].id != id by {
        if r.Some? {
          var i :| 0 <= i < |cats[1..]| && cats[1..][i] == r.value
                   && forall j :: 0 <= j < i ==> cats[1..][j].id != id;
          assert cats[i + 1] == r.value;
        }
      }
      assert r.None? ==> !HasId(cats, id) by {
        assert forall i :: 1 <= i < |cats| ==> cats[i] == cats[1..][i - 1];
      }
      r
  }

  /** `cats.find` for an optional selection: nothing is found for no selection. */
  function FindSelected(cats: seq<CatProfile>, selected: Option<string>): (r: Option<CatProfile>)
    ensures selected.None? ==> r.None?
    ensures selected.Some? ==> (r.Some? <==> HasId(cats, selected.value))
    ensures r.Some? ==> r.value in cats && r.value.id == selected.value
    ensures r.Some? ==> exists i :: 0 <= i < |cats| && cats[i] == r.value && forall j :: 0 <= j < i ==> cats[j].id != selected.value
  {
    if selected.None? then None else FindById(cats, selected.value)
  }

  /* ---------- create: `[newCat, ...cats]` ---------- */

  /** The list after creating `p`: `p` first, then the old list unchanged. */
  function Prepend(cats: seq<CatProfile>, p: CatProfile): (r: seq<CatProfile>)
    ensures |r| == |cats| + 1 && r[0] == p && r[1..] == cats
  {
    [p] + cats
  }

  /** Creating a profile whose id is not yet used keeps ids unique. */
  lemma PrependKeepsIdsUnique(cats: seq<CatProfile>, p: CatProfile)
    requires IdsUnique(cats) && !HasId(cats, p.id)
    ensures IdsUnique(Prepend(cats, p))
  {
    var r := Prepend(cats, p);
    forall i, j | 0 <= i < j < |r|
      ensures r[i].id != r[j].id
    {
      if i == 0 {
        assert r[j] == cats[j - 1];
      } else {
        assert r[i] == cats[i - 1] && r[j] == cats[j - 1];
      }
    }
  }

  /* ---------- edit: `cats.map(c => c.id === id ? {...c, ...draft} : c)` ---------- */

  /** The edit step applied to one profile. */
  function MergeIfSelected(id: string, d: CatDraft): CatProfile -> CatProfile {
    (c: CatProfile) => if c.id == id then Merge(c, d) else c
  }

  /** The list after editing the profile(s) with the given id: same length and
      order; exactly the entries with that id become the merge of the old entry
      with the draft, all others are unchanged. */
  function UpdateWhere(cats: seq<CatProfile>, id: string, d: CatDraft): (r: seq<CatProfile>)
    ensures |r| == |cats|
    ensures forall i :: 0 <= i < |cats| && cats[i].id == id ==> r[i] == Merge(cats[i], d)
    ensures forall i :: 0 <= i < |cats| && cats[i].id != id ==> r[i] == cats[i]
  {
    MapSeq(cats, MergeIfSelected(id, d))
  }

  /** An edit whose draft carries no id, or the edited id itself, keeps every
      id in place, and so keeps ids unique. */
  lemma UpdateKeepsIds(cats: seq<CatProfile>, id: string, d: CatDraft)
    requires d.id.None? || d.id == Some(id)
    ensures forall i :: 0 <= i < |cats| ==> UpdateWhere(cats, id, d)[i].id == cats[i].id
    ensures IdsUnique(cats) ==> IdsUnique(UpdateWhere(cats, id, d))
  {
  }

  /** An edit aimed at an id nobody has changes nothing, whatever the draft. */
  lemma UpdateMissingIdIsNoOp(cats: seq<CatProfile>, id: string, d: CatDraft)
    requires !HasId(cats, id)
    ensures UpdateWhere(cats, id, d) == cats
  {
    var r := UpdateWhere(cats, id, d);
    forall i | 0 <= i < |cats|
      ensures r[i] == cats[i]
    {
      assert cats[i].id != id;
    }
  }

  /* ---------- delete: `cats.filter(c => c.id !== id)` ---------- */

  /** The test deciding which profiles a delete keeps. */
  function KeepUnless(id: string): CatProfile -> bool {
    (c: CatProfile) => c.id != id
  }

  /** The list after deleting `id`: every profile with that id is gone, every
      other profile stays, in its original relative order. */
  function RemoveById(cats: seq<CatProfile>, id: string): (r: seq<CatProfile>)
    ensures !HasId(r, id)
    ensures forall i :: 0 <= i < |cats| && cats[i].id != id ==> cats[i] in r
    ensures forall i :: 0 <= i < |r| ==> r[i] in cats
    ensures IsSubsequence(r, cats)
    ensures HasId(cats, id) ==> |r| < |cats|
    ensures !HasId(cats, id) ==> r == cats
    ensures forall x: CatProfile :: multiset(r)[x] == (if x.id == id then 0 else multiset(cats)[x])
  {
    FilterMultiset(cats, KeepUnless(id));
    RemoveShrinks(cats, id);
    Filter(cats, KeepUnless(id))
  }

  /** Filtering out a present id shortens the list; filtering out an absent
      one keeps it. */
  lemma RemoveShrinks(cats: seq<CatProfile>, id: string)
    ensures HasId(cats, id) ==> |Filter(cats, KeepUnless(id))| < |cats|
    ensures !HasId(cats, id) ==> Filter(cats, KeepUnless(id)) == cats
  {
    if HasId(cats, id) {
      var k :| 0 <= k < |cats| && cats[k].id == id;
      assert cats == cats[..k] + [cats[k]] + cats[k + 1..];
      FilterAppend(cats[..k] + [cats[k]], cats[k + 1..], KeepUnless(id));
      FilterAppend(cats[..k], [cats[k]], KeepUnless(id));
      assert Filter([cats[k]], KeepUnless(id)) == [];
    } else {
      FilterAllPass(cats, KeepUnless(id));
    }
  }

  /** Deleting from a concatenation deletes from each part, so the kept
      profiles keep their order and their number of occurrences. */
  lemma RemoveAppend(xs: seq<CatProfile>, ys: seq<CatProfile>, id: string)
    ensures RemoveById(xs + ys, id) == RemoveById(xs, id) + RemoveById(ys, id)
  {
    FilterAppend(xs, ys, KeepUnless(id));
  }

  /** Deleting twice is deleting once. */
  lemma RemoveIdempotent(cats: seq<CatProfile>, id: string)
    ensures RemoveById(RemoveById(cats, id), id) == RemoveById(cats, id)
  {
  }

  /** Deleting keeps ids unique. */
  lemma RemoveKeepsIdsUnique(cats: seq<CatProfile>, id: string)
    requires IdsUnique(cats)
    ensures IdsUnique(RemoveById(cats, id))
  {
    FilterKeepsIdsUnique(cats, KeepUnless(id));
  }

  /** Filtering a list with unique ids, by any test, keeps ids unique. */
  lemma {:induction false} FilterKeepsIdsUnique(cats: seq<CatProfile>, p: CatProfile -> bool)
    requires IdsUnique(cats)
    ensures IdsUnique(Filter(cats, p))
    decreases |cats|
  {
    if |cats| > 0 {
      var rest := Filter(cats[1..], p);
      FilterKeepsIdsUnique(cats[1..], p);
      if p(cats[0]) {
        forall j | 0 <= j < |rest|
          ensures rest[j].id != cats[0].id
        {
          assert rest[j] in cats[1..];
          var k :| 0 <= k < |cats[1..]| && cats[1..][k] == rest[j];
          assert cats[k + 1] == rest[j];
        }
        PrependKeepsIdsUnique(rest, cats[0]);
        assert Filter(cats, p) == Prepend(rest, cats[0]);
      }
    }
  }

  /* ---------- search ---------- */

  /** A profile matches a term when its name, location or breed contains it. */
  predicate Matches(c: CatProfile, term: string) {
    Contains(c.name, term) || Contains(c.location, term) || Contains(c.breed, term)
  }

  function MatchesTerm(term: string): CatProfile -> bool {
    (c: CatProfile) => Matches(c, term)
  }

  /** The profiles shown for a search term: exactly the matching ones, in list
      order. */
  function Search(cats: seq<CatProfile>, term: string): (r: seq<CatProfile>)
    ensures forall i :: 0 <= i < |r| ==> r[i] in cats && Matches(r[i], term)
    ensures forall i :: 0 <= i < |cats| && Matches(cats[i], term) ==> cats[i] in r
    ensures IsSubsequence(r, cats)
    ensures forall x: CatProfile :: multiset(r)[x] == (if Matches(x, term) then multiset(cats)[x] else 0)
  {
    FilterMultiset(cats, MatchesTerm(term));
    Filter(cats, MatchesTerm(term))
  }

  /** The empty term shows the whole list, in order. */
  lemma SearchEmptyTerm(cats: seq<CatProfile>)
    ensures Search(cats, "") == cats
  {
    forall i | 0 <= i < |cats|
      ensures MatchesTerm("")(cats[i])
    {
      assert Contains(cats[i].name, "");
    }
    FilterAllPass(cats, MatchesTerm(""));
  }

  /** Searching a concatenation searches each part: results keep list order. */
  lemma SearchAppend(xs: seq<CatProfile>, ys: seq<CatProfile>, term: string)
    ensures Search(xs + ys, term) == Search(xs, term) + Search(ys, term)
  {
    FilterAppend(xs, ys, MatchesTerm(term));
  }

  /** Searching a two-profile list where only the second matches yields that profile. */
  lemma SearchPairSecondOnly(x: CatProfile, y: CatProfile, term: string)
    requires !Matches(x, term) && Matches(y, term)
    ensures Search([x, y], term) == [y]
  {
    assert [x, y] == [x] + [y];
    SearchAppend([x], [y], term);
  }

  /** "大白" is not found by "图书馆": none of its searched fields holds "图". */
  lemma SeedFirstMissesLibrary(firstClock: int, secondClock: int)
    ensures !Matches(Seed(firstClock, secondClock)[0], "图书馆")
  {
    var c := Seed(firstClock, secondClock)[0];
    NotContainsWithoutFirstChar(c.location, "图书馆");
    NotContainsWithoutFirstChar(c.breed, "图书馆");
  }

  /** Over the seed, "图书馆" finds exactly "警长". */
  lemma SearchSeedLibrary(firstClock: int, secondClock: int)
    ensures Search(Seed(firstClock, secondClock), "图书馆") == [Seed(firstClock, secondClock)[1]]
  {
    var cats := Seed(firstClock, secondClock);
    SeedFirstMissesLibrary(firstClock, secondClock);
    assert cats[1].location[..3] == "图书馆";
    assert Matches(cats[1], "图书馆");
    SearchPairSecondOnly(cats[0], cats[1], "图书馆");
    assert cats == [cats[0], cats[1]];
  }
}

=== FILE: text.dfy ===
/** String helpers the application relies on from JavaScript's standard
    library: `String.prototype.includes`, `Array.prototype.join` and the
    decimal `toString` of a non-negative integer. */
module Text {

  /* ---------- substring search (`s.includes(t)`) ---------- */

  /** `t` occurs in `s` starting at position `i`. */
  ghost predicate OccursAt(s: string, t: string, i: int) {
    0 <= i && i + |t| <= |s| && s[i..i + |t|] == t
  }

  /** `s.includes(t)`: case-sensitive substring test; the empty string occurs
      in every string. */
  predicate Contains(s: string, t: string): (b: bool)
    ensures b ==> |t| <= |s|
    ensures |t| == 0 ==> b
    ensures b && |t| > 0 ==> t[0] in s
    decreases |s|
  {
    |t| <= |s| && (s[..|t|] == t || (|s| > 0 && Contains(s[1..], t)))
  }

  /** The recursive test agrees with the positional definition of an occurrence. */
  lemma {:induction false} ContainsIff(s: string, t: string)
    ensures Contains(s, t) <==> exists i :: OccursAt(s, t, i)
    decreases |s|
  {
    if Contains(s, t) {
      if s[..|t|] == t {
        assert OccursAt(s, t, 0);
      } else {
        ContainsIff(s[1..], t);
        var j :| OccursAt(s[1..], t, j);
        assert s[1..][j..j + |t|] == s[j + 1..j + 1 + |t|];
        assert OccursAt(s, t, j + 1);
      }
    }
    if exists i :: OccursAt(s, t, i) {
      var i :| OccursAt(s, t, i);
      if i > 0 {
        assert s[1..][i - 1..i - 1 + |t|] == s[i..i + |t|];
        assert OccursAt(s[1..], t, i - 1);
        ContainsIff(s[1..], t);
      }
    }
  }

  /** A string lacking the term's first character does not contain the term. */
  lemma NotContainsWithoutFirstChar(s: string, t: string)
    requires |t| > 0 && t[0] !in s
    ensures !Contains(s, t)
  {
  }

  /* ---------- `parts.join(sep)` ---------- */

  /** `parts.join(sep)`: the parts in order with `sep` between neighbours. */
  function Join(parts: seq<string>, sep: string): (r: string)
    ensures |parts| == 0 ==> r == ""
    ensures |parts| == 1 ==> r == parts[0]
  {
    if |parts| == 0 then ""
    else if |parts| == 1 then parts[0]
    else parts[0] + sep + Join(parts[1..], sep)
  }

  /** Appending one more part adds exactly one separator and that part. */
  lemma {:induction false} JoinSnoc(parts: seq<string>, sep: string, x: string)
    requires |parts| > 0
    ensures Join(parts + [x], sep) == Join(parts, sep) + sep + x
    decreases |parts|
  {
    var ys := parts + [x];
    assert ys[0] == parts[0] && |ys| >= 2;
    assert Join(ys, sep) == parts[0] + sep + Join(ys[1..], sep);
    if |parts| == 1 {
      assert ys[1..] == [x];
    } else {
      assert ys[1..] == parts[1..] + [x];
      JoinSnoc(parts[1..], sep, x);
      var a, b := parts[0], Join(parts[1..], sep);
      assert Join(parts, sep) == a + sep + b;
      assert Join(ys, sep) == a + sep + (b + sep + x);
      assert a + sep + (b + sep + x) == (a + sep + b) + sep + x;
    }
  }

  /* ---------- decimal rendering of a clock value (`n.toString()`) ---------- */

  predicate IsDigit(c: char) {
    '0' <= c <= '9'
  }

  predicate AllDigits(s: string) {
    forall i :: 0 <= i < |s| ==> IsDigit(s[i])
  }

  function DigitValue(c: char): (d: nat)
    requires IsDigit(c)
    ensures d < 10
  {
    (c as int) - ('0' as int)
  }

  function DigitChar(d: nat): (c: char)
    requires d < 10
    ensures IsDigit(c) && DigitValue(c) == d
  {
    (('0' as int) + d) as char
  }

  /** Decimal text of `n`, as JavaScript renders a non-negative integer:
      at least one digit and no leading zero. */
  function DecimalString(n: nat): (s: string)
    ensures |s| >= 1 && AllDigits(s)
    ensures s[0] == '0' ==> n == 0
    decreases n
  {
    if n < 10 then [DigitChar(n)] else DecimalString(n / 10) + [DigitChar(n % 10)]
  }

  /** Reads a string of digits back as a number. */
  function ParseDecimal(s: string): nat
    requires AllDigits(s)
    decreases |s|
  {
    if |s| == 0 then 0 else ParseDecimal(s[..|s| - 1]) * 10 + DigitValue(s[|s| - 1])
  }

  /** Rendering then reading back yields the original number. */
  lemma {:induction false} ParseDecimalString(n: nat)
    ensures ParseDecimal(DecimalString(n)) == n
    decreases n
  {
    if n >= 10 {
      var s := DecimalString(n);
      assert s[..|s| - 1] == DecimalString(n / 10);
      ParseDecimalString(n / 10);
    }
  }

  /** Distinct clock values give distinct ids. */
  lemma DecimalStringInjective(m: nat, n: nat)
    ensures DecimalString(m) == DecimalString(n) ==> m == n
  {
    ParseDecimalString(m);
    ParseDecimalString(n);
  }
}

=== FILE: types.dfy ===
/** The record shapes of the catalogue: the two enumerations, a finished cat
    profile, the draft the add/edit form works on (the same shape with every
    field optional), and the result of an image analysis. */
module Types {
  import opened Wrappers

  /* ---------- enumerations ---------- */

  /** A cat's welfare status. The source uses the display label as the
      enumeration's value; here the value and its label are kept apart. */
  datatype CatStatus = Healthy | Sick | Injured | Adopted | Missing | UnknownStatus

  datatype Gender = Male | Female | UnknownGender

  /** The label stored for, and shown with, each status. */
  function StatusLabel(s: CatStatus): string {
    match s
    case Healthy => "健康"
    case Sick => "生病"
    case Injured => "受伤"
    case Adopted => "已领养"
    case Missing => "失踪"
    case UnknownStatus => "未知"
  }

  function GenderLabel(g: Gender): string {
    match g
    case Male => "公"
    case Female => "母"
    case UnknownGender => "未知"
  }

  /** Every status, in declaration order (what `Object.values(CatStatus)` lists
      in the status picker). */
  const AllStatuses: seq<CatStatus> := [Healthy, Sick, Injured, Adopted, Missing, UnknownStatus]

  const AllGenders: seq<Gender> := [Male, Female, UnknownGender]

  /** The status whose label is `text` (the picker's `value as CatStatus`),
      or None for text that is no status label. */
  function ParseStatus(text: string): (r: Option<CatStatus>)
    ensures r.Some? ==> StatusLabel(r.value) == text
    ensures r.None? ==> forall i :: 0 <= i < |AllStatuses| ==> StatusLabel(AllStatuses[i]) != text
  {
    if text == "健康" then Some(Healthy)
    else if text == "生病" then Some(Sick)
    else if text == "受伤" then Some(Injured)
    else if text == "已领养" then Some(Adopted)
    else if text == "失踪" then Some(Missing)
    else if text == "未知" then Some(UnknownStatus)
    else None
  }

  function ParseGender(text: string): (r: Option<Gender>)
    ensures r.Some? ==> GenderLabel(r.value) == text
    ensures r.None? ==> forall i :: 0 <= i < |AllGenders| ==> GenderLabel(AllGenders[i]) != text
  {
    if text == "公" then Some(Male)
    else if text == "母" then Some(Female)
    else if text == "未知" then Some(UnknownGender)
    else None
  }

  /** There are exactly six statuses, their labels are non-empty and pairwise
      distinct (each label reads back as its own status), and the unknown
      status is labelled "未知". */
  lemma StatusEnumeration(s: CatStatus)
    ensures |AllStatuses| == 6 && s in AllStatuses
    ensures forall i, j :: 0 <= i < j < |AllStatuses| ==> StatusLabel(AllStatuses[i]) != StatusLabel(AllStatuses[j])
    ensures StatusLabel(s) != "" && ParseStatus(StatusLabel(s)) == Some(s)
    ensures StatusLabel(UnknownStatus) == "未知"
  {
    match s
    case Healthy =>
    case Sick =>
    case Injured =>
    case Adopted =>
    case Missing =>
    case UnknownStatus =>
  }

  /** There are exactly three genders with non-empty, pairwise distinct labels;
      the unknown gender is labelled "未知". */
  lemma GenderEnumeration(g: Gender)
    ensures |AllGenders| == 3 && g in AllGenders
    ensures forall i, j :: 0 <= i < j < |AllGenders| ==> GenderLabel(AllGenders[i]) != GenderLabel(AllGenders[j])
    ensures GenderLabel(g) != "" && ParseGender(GenderLabel(g)) == Some(g)
    ensures GenderLabel(UnknownGender) == "未知"
  {
    match g
    case Male =>
    case Female =>
    case UnknownGender =>
  }

  /* ---------- records ---------- */

  /** One known stray cat: all twelve fields are mandatory. `lastSeen` is a
      millisecond timestamp. */
  datatype CatProfile = CatProfile(
    id: string,
    name: string,
    location: string,
    breed: string,
    color: string,
    estimatedAge: string,
    gender: Gender,
    status: CatStatus,
    features: string,
    imageUrl: string,
    lastSeen: int,
    notes: string)

  /** The form's working copy, `Partial<CatProfile>`: a field is `Some` exactly
      when the corresponding key is present in the draft object. */
  datatype CatDraft = CatDraft(
    id: Option<string>,
    name: Option<string>,
    location: Option<string>,
    breed: Option<string>,
    color: Option<string>,
    estimatedAge: Option<string>,
    gender: Option<Gender>,
    status: Option<CatStatus>,
    features: Option<string>,
    imageUrl: Option<string>,
    lastSeen: Option<int>,
    notes: Option<string>)

  /** What the image analysis reports about a photo. */
  datatype CatAnalysisResult = CatAnalysisResult(
    breed: string,
    color: string,
    estimatedAge: string,
    features: string,
    possibleNameSuggestions: seq<string>,
    visualHealthAssessment: string)

  /** `{}`: the draft with no key present. */
  const EmptyDraft: CatDraft :=
    CatDraft(None, None, None, None, None, None, None, None, None, None, None, None)

  /** The draft holding every field of `p` (`setFormData(cat)`). */
  function DraftOf(p: CatProfile): (d: CatDraft)
    ensures d.id == Some(p.id) && d.name == Some(p.name) && d.location == Some(p.location)
    ensures d.breed == Some(p.breed) && d.color == Some(p.color) && d.estimatedAge == Some(p.estimatedAge)
    ensures d.gender == Some(p.gender) && d.status == Some(p.status) && d.features == Some(p.features)
    ensures d.imageUrl == Some(p.imageUrl) && d.lastSeen == Some(p.lastSeen) && d.notes == Some(p.notes)
  {
    CatDraft(Some(p.id), Some(p.name), Some(p.location), Some(p.breed), Some(p.color),
             Some(p.estimatedAge), Some(p.gender), Some(p.status), Some(p.features),
             Some(p.imageUrl), Some(p.lastSeen), Some(p.notes))
  }

  /* ---------- JavaScript truthiness of an optional string ---------- */

  /** The field is present and is not the empty string (`!!draft.field`). */
  predicate Filled(o: Option<string>) {
    o.Some? && o.value != ""
  }

  /** `draft.field || fallback`: an absent or empty field yields the fallback. */
  function OrElse(o: Option<string>, fallback: string): (r: string)
    ensures Filled(o) ==> r == o.value
    ensures !Filled(o) ==> r == fallback
  {
    if Filled(o) then o.value else fallback
  }

  /* ---------- draft -> profile ---------- */

  /** The image used when a new profile has no photo. */
  const PlaceholderImage: string := "https://picsum.photos/200"

  /** The text stored for an unknown breed, colour or age. */
  const UnknownText: string := "未知"

  /** A draft may be saved only when both name and location are non-empty:
      the save is refused when either is absent or the empty string. */
  predicate Accepts(d: CatDraft): (b: bool)
    ensures !b <==> (d.name == None || d.name == Some("") || d.location == None || d.location == Some(""))
  {
    Filled(d.name) && Filled(d.location)
  }

  /** The new profile built from an accepted draft, with the given id and
      sighting time. Every field is populated: absent or empty breed, colour
      and age become "未知", absent gender and status become unknown, absent or
      empty features and notes become "", and an absent or empty image becomes
      the placeholder. Any id or lastSeen in the draft is ignored. */
  function Finalize(d: CatDraft, id: string, seen: int): (p: CatProfile)
    requires Accepts(d)
    ensures p.id == id && p.lastSeen == seen
    ensures p.name == d.name.value && p.location == d.location.value
    ensures p.breed == (if Filled(d.breed) then d.breed.value else UnknownText)
    ensures p.color == (if Filled(d.color) then d.color.value else UnknownText)
    ensures p.estimatedAge == (if Filled(d.estimatedAge) then d.estimatedAge.value else UnknownText)
    ensures p.gender == (if d.gender.Some? then d.gender.value else UnknownGender)
    ensures p.status == (if d.status.Some? then d.status.value else UnknownStatus)
    ensures p.features == (if Filled(d.features) then d.features.value else "")
    ensures p.imageUrl == (if Filled(d.imageUrl) then d.imageUrl.value else PlaceholderImage)
    ensures p.notes == (if Filled(d.notes) then d.notes.value else "")
  {
    CatProfile(
      id := id,
      name := d.name.value,
      location := d.location.value,
      breed := OrElse(d.breed, UnknownText),
      color := OrElse(d.color, UnknownText),
      estimatedAge := OrElse(d.estimatedAge, UnknownText),
      gender := d.gender.GetOr(UnknownGender),
      status := d.status.GetOr(UnknownStatus),
      features := OrElse(d.features, ""),
      imageUrl := OrElse(d.imageUrl, PlaceholderImage),
      lastSeen := seen,
      notes := OrElse(d.notes, ""))
  }

  /** Finalising the full draft of a profile whose defaulted fields are already
      filled gives back that profile, with only id and lastSeen replaced. */
  lemma FinalizeDraftOf(p: CatProfile, id: string, seen: int)
    requires p.name != "" && p.location != ""
    requires p.breed != "" && p.color != "" && p.estimatedAge != "" && p.imageUrl != ""
    ensures Finalize(DraftOf(p), id, seen) == p.(id := id, lastSeen := seen)
  {
  }

  /* ---------- edit: `{ ...cat, ...draft }` ---------- */

  /** The profile `c` overridden by every key present in the draft (a shallow
      object spread): a present field wins even when it is the empty string,
      an absent field keeps the old value. */
  function Merge(c: CatProfile, d: CatDraft): (m: CatProfile)
    ensures m.id == d.id.GetOr(c.id) && m.name == d.name.GetOr(c.name)
    ensures m.location == d.location.GetOr(c.location) && m.breed == d.breed.GetOr(c.breed)
    ensures m.color == d.color.GetOr(c.color) && m.estimatedAge == d.estimatedAge.GetOr(c.estimatedAge)
    ensures m.gender == d.gender.GetOr(c.gender) && m.status == d.status.GetOr(c.status)
    ensures m.features == d.features.GetOr(c.features) && m.imageUrl == d.imageUrl.GetOr(c.imageUrl)
    ensures m.lastSeen == d.lastSeen.GetOr(c.lastSeen) && m.notes == d.notes.GetOr(c.notes)
  {
    CatProfile(
      d.id.GetOr(c.id), d.name.GetOr(c.name), d.location.GetOr(c.location),
      d.breed.GetOr(c.breed), d.color.GetOr(c.color), d.estimatedAge.GetOr(c.estimatedAge),
      d.gender.GetOr(c.gender), d.status.GetOr(c.status), d.features.GetOr(c.features),
      d.imageUrl.GetOr(c.imageUrl), d.lastSeen.GetOr(c.lastSeen), d.notes.GetOr(c.notes))
  }

  /** Merging the empty draft changes nothing; merging the full draft of `p`
      yields `p`; merging the same draft twice is merging it once. */
  lemma MergeLaws(c: CatProfile, p: CatProfile, d: CatDraft)
    ensures Merge(c, EmptyDraft) == c
    ensures Merge(c, DraftOf(p)) == p
    ensures Merge(Merge(c, d), d) == Merge(c, d)
  {
  }

  /** A draft with only a status changes only the status: every other field,
      `lastSeen` included, is kept. */
  lemma MergeStatusOnly(c: CatProfile, s: CatStatus)
    ensures Merge(c, EmptyDraft.(status := Some(s))) == c.(status := s)
  {
  }
}

=== FILE: wrappers.dfy ===
/** An optional value: how the model writes a JavaScript field or variable that
    may be `undefined` or `null`. */
module Wrappers {

  datatype Option<+T> = None | Some(value: T) {

    /** The wrapped value, or `default` when there is none. */
    function GetOr(default: T): (r: T)
      ensures Some? ==> r == value
      ensures None? ==> r == default
    {
      match this
      case Some(v) => v
      case None => default
    }
  }
}
